=== FILE: README.md ===
# TronWeb event queries, modelled in Dafny

This project models the logic of TronWeb's event client, `src/lib/event.js`:

- **Query builder** (`getEventsByContractAddress`). It applies option defaults and resolves the timestamp and fingerprint aliases. It then runs an ordered chain of validation checks, where the first broken check decides the error message. It caps `size` at 200, assembles the route segments and the query-string entries, and picks the compatible (`v1/contracts/...`) or native (`event/contract/...`) endpoint template.
- **Transaction endpoint** (`getEventsByTransactionID`). It picks `v1/transactions/{id}/events` or `event/transaction/{id}`, including the case where the callback is passed in the options position.
- **Result normaliser** (`resultManager`). It dispatches four ways on the shape of the server's payload: falsy, array, object with a truthy `data`, or any other value. It then returns either the `{data, meta}` envelope, with data raw or mapped element by element, or the bare data.

JavaScript values are the `Js.JsVal` datatype, and truthiness is `Js.Truthy`. The `||` operator is `Js.Or`, and a left-grouped chain of them is `Js.OrChain`. The helpers the client calls but does not define are fields of the `Host.Host` datatype: `isAddress`, `isInteger`, `address.fromHex`, `JSON.stringify`, `querystring.stringify`, `utils.mapEvent`, and the string parsing and number formatting inside ToNumber and ToString. Every property below therefore holds whatever those helpers do. An options object maps each recognised property to `Option<JsVal>`. `None` means the property is absent, so `Object.assign`'s default applies. `Some(Undef)` means the property was set explicitly to `undefined`, and that value replaces the default. A plain object lists its own enumerable properties in enumeration order, so `JSON.stringify` may depend on that order. The outcome of building or normalising is `Result<_, Js.Fault>`. A fault is either a value handed to the callback's error slot (`Reported`) or a `TypeError` thrown by the runtime. `EventClient.Outcome` says where such a TypeError ends up. If it is thrown out of the call itself, no callback runs. If it is thrown inside `.then`, the callback receives it as its error.

Files: `results.dfy` (Option, Result), `js.dfy` (values, truthiness, `||`), `host.dfy` (external helpers, ToNumber, ToString), `contract_query.dfy`, `transaction_query.dfy`, `result_manager.dfy`, and `event_client.dfy` (builder and normaliser composed).

The code checks for a configured event server first (line 90) and the address after it (line 95). The model follows that order.

Two easily missed behaviours of the code are modelled:

- `filters: null` passes `typeof filters === 'object'`, and `Object.keys(null)` then throws. `BuildRequest` models this as `Failure(TypeError)`, reached only after every validation rule holds.
- In `qs.fromTimestamp = qs.since = t`, the inner assignment completes first. So `since` is created before `fromTimestamp`, and the query keys come in the order size, page, filters, since, fromTimestamp, onlyConfirmed, onlyUnconfirmed, sort, fingerprint.

In `resultManager`, the compatibility mode with `rawResponse !== true` and an envelope whose `data` is truthy but not an array leads to `data.map`, which is not a function there. The model ends that case in `Failure(TypeError)`.

## Model

| member | source | states |
|---|---|---|
| `Js.OrChainFirstTruthy` | src/lib/event.js:149-151 | A chain `a \|\| b \|\| c` evaluates to its first truthy operand. If no operand is truthy it evaluates to the last one, and the chain is truthy exactly when some operand is. |
| `ContractQuery.AliasResolution` | src/lib/event.js:62-151 | The resolved timestamp is `fromTimestamp` if truthy, else `sinceTimestamp` (default 0) if truthy, else `since`. The resolved fingerprint is `fingerprint`, else `previousFingerprint`, else `previousLastEventFingerprint`, by the same rule. |
| `ContractQuery.ErrorPrecedence` | src/lib/event.js:90-132 | The first broken rule, in the order event server, address, event name without address, non-integer defined timestamp, non-integer size, non-integer page, block number without event name, decides the message, and no request is built. With no rule broken, the only failure left is the TypeError for `filters: null`. |
| `ContractQuery.BuildRequest` | src/lib/event.js:58-155 | A built request implies a configured server, a valid address, and an integer `size` and `page`. It also implies that an event name comes with a truthy address and a block number comes with an event name. The request is the assembly of the resolved options. |
| `ContractQuery.CapSizeBound` | src/lib/event.js:104-110 | The effective size never compares greater than 200. A size above 200 becomes exactly 200 and any other size is unchanged. The cap is idempotent, and for a number `x` it yields `min(x, 200)`. |
| `ContractQuery.Assemble` | src/lib/event.js:118-155 | The built request keeps `RouteFollowsFilters` and `QueryFollowsSettings`, and its `size` entry never compares greater than 200. The endpoint is `v1/contracts/{route joined by "/"}/events?{query}` under a truthy compatibility flag and `event/contract/{route}?{query}` otherwise. |
| `ContractQuery.RouteShape` | src/lib/event.js:115-125 | Once validation passes, the route has at most three segments and is a prefix of formatted address, event name, block number. Each segment is present exactly when its value is truthy, so a block-number segment never appears without an event-name segment. |
| `ContractQuery.QueryShape` | src/lib/event.js:127-151 | `size` and `page` always come first. `since` and `fromTimestamp` are both bound to the resolved timestamp when it is truthy and both absent otherwise. `filters` holds the JSON encoding exactly for an object or array with at least one key. `onlyConfirmed` and `onlyUnconfirmed` are never both present, with `onlyUnconfirmed` present only when truthy and `onlyConfirmed` is not. `sort` and the resolved fingerprint are present exactly when truthy. |
| `ContractQuery.QueryHead` | src/lib/event.js:127-130 | The query object starts with `size`, then `page`. |
| `ContractQuery.QueryInCreationOrder` | src/lib/event.js:127-151 | The query keys appear in the order the builder creates them, with `since` before `fromTimestamp`, and no key appears twice. |
| `ContractQuery.QueryEntryFromSlot` | src/lib/event.js:132-151 | An entry is in the query exactly when the step that handles its key creates it. No other step adds or overwrites that key. |
| `ResultManager.MapEvents` | src/lib/event.js:25 | Mapping keeps the length, and each element of the image is `mapEvent` of the element at the same position. |
| `ResultManager.Normalize` | src/lib/event.js:7-33 | A falsy payload reports `'Unknown error occurred'`. A truthy payload that is neither an array nor carries a truthy `data` is itself the error. Success happens exactly for an array or an envelope, unless mapping would call `map` on a non-array. Compatibility mode returns `{data, meta}`: the identical data when `rawResponse === true`, otherwise the element-wise `mapEvent` image of the same length. Without compatibility mode the result is the bare data and meta is dropped. |
| `ResultManager.ReportedErrors` | src/lib/event.js:11-21 | An error handed to the callback is either the fixed message for a falsy payload or the truthy payload itself. |
| `ResultManager.BareIgnoresMapping` | src/lib/event.js:23-28 | Outside compatibility mode, the outcome depends neither on `rawResponse` nor on `mapEvent`. |
| `ResultManager.RawEnvelopeMatchesBare` | src/lib/event.js:23-28 | In compatibility mode with `rawResponse === true`, the envelope's data is exactly the data the bare form returns. |
| `ResultManager.IdentityMappingIsRaw` | src/lib/event.js:25 | With an identity `mapEvent`, the mapped envelope equals the raw envelope. |
| `TransactionQuery.BuildTxRequest` | src/lib/event.js:164-181 | The call fails exactly when no event server is configured, with that message. With an options object, the endpoint is `v1/transactions/{id}/events` under a truthy flag and `event/transaction/{id}` otherwise. With the callback in the options position, the endpoint is always native and the normaliser sees no flag. |
| `TransactionQuery.TemplatesDiffer` | src/lib/event.js:179-181 | Whatever the two transaction IDs are, an endpoint built under a truthy flag never equals one built under a falsy flag. |
| `TransactionQuery.BuildTxRequestFixed` | src/lib/event.js:164-181 | The same builder with the flag applied after the options-as-callback shift. The endpoint is compatible exactly under a truthy configured flag, whatever the second argument is. |
| `TransactionQuery.FixedAgreesOnObjectOptions` | src/lib/event.js:166-181 | With an options object, the as-written and the corrected builders agree. |
| `TransactionQuery.CallbackOptionsLoseCompatibility` | src/lib/event.js:166-170 | In compatibility mode with the callback in the options position, the code as written requests `event/transaction/abc` and loses the flag. The corrected builder requests `v1/transactions/abc/events`. |
| `EventClient.ContractEvents` | src/lib/event.js:90-160 | The call throws before any callback runs exactly when every validation rule holds and `filters` is null. The first broken rule's message is delivered to the callback. The callback receives a TypeError exactly when the request is built and the answer is an envelope in compatibility mode whose `data` is not an array, without `rawResponse === true`. Whenever the request is built, the callback receives `resultManager` of the server's answer at that endpoint, with the configured flag and the caller's `rawResponse`. |
| `EventClient.RejectedCallSendsNothing` | src/lib/event.js:90-116 | A call that fails validation has the same outcome whatever the server would answer, so no request is made. |
| `EventClient.AcceptedCallReadsOneEndpoint` | src/lib/event.js:153-159 | A validated call depends on the server only through the answer for the one endpoint it builds. |

## Left out

- `setServer` and the `isConnected` health check (src/lib/event.js:44-56): these construct providers and issue HTTP requests.
- Transport failures of `eventServer.request` and the `.catch` preference for `err.response.data` over `err` (lines 157-160). This is asynchronous I/O. The server is a function from endpoint to payload, and `EventClient.ContractEvents` composes the `.then` into `resultManager` and the `.catch` of a TypeError. The transaction path (lines 183-186) is not composed with its request: `TransactionQuery` stops at the endpoint and the options handed to `resultManager`.
- `injectPromise` and the callback-or-promise calling convention (lines 41, 85-86, 173-174). The model always assumes a callback was given.
- The constructor's `instanceof TronWeb` check (lines 37-39) and `console.warn` (line 108): runtime type plumbing and a side effect only.
- The real behaviour of `isAddress`, `isInteger`, `address.fromHex`, `JSON.stringify`, `querystring.stringify`, `utils.mapEvent`, and ToNumber/ToString of strings, numbers, arrays, objects and functions. These are library code, so they are fields of `Host` and unconstrained.
- `utils.isArray` is taken to be true exactly for the array constructor of `JsVal`. Array-likes, sparse arrays, getters, symbols, BigInt and infinite numbers are not represented.
- An options argument that is `null` or a primitive throws when the code writes `trongridCompatible` onto it (lines 60, 166). In `getEventsByContractAddress`, a function passed as options is read like an options object with no recognised properties, because the only property `Object.assign` copies from it is `trongridCompatible`. The callback is never shifted into place there, unlike at line 168. A function in that position is therefore the all-absent `Options` of the model when a callback is also passed. The model takes options to be a plain object, or in `getEventsByTransactionID` the callback.
- The write of `trongridCompatible` onto the caller's own options object (lines 60, 166) is a side effect visible to the caller. The model passes the flag on to the normaliser but does not model the mutation.
- `EventClient.ContractEvents` and `TransactionQuery.BuildTxRequest` assume the options object is not changed between the call and the server's answer. `resultManager` reads `trongridCompatible` and `rawResponse` from the caller's own object only when the answer arrives (lines 23, 25, 159, 185). The model reads both once, at call time. A second call with the same object on another instance, or a later write to `rawResponse`, can change what the first callback receives. The model does not cover this.
- A callback that throws inside `.then` is called a second time by the `.catch` at line 160. Callbacks are taken not to throw.
- `ResultManager.Normalize`: a truthy `data` that is a plain object carrying its own callable `map` is not modelled. Such a `data` ends in the TypeError.

## Findings

| source | as written | input that shows it | evidently intended | confidence | as-written member | corrected member |
|---|---|---|---|---|---|---|
| src/lib/event.js:166-170 | The compatibility flag is written onto the second argument before that argument is replaced by `{}` when it is the callback. | `getEventsByTransactionID('abc', callback)` with `trongridCompatible` true requests `event/transaction/abc` and normalises without the flag. | The configured flag applies whatever the second argument is, giving `v1/transactions/abc/events` and `{data, meta}` results. | medium, not executed | `TransactionQuery.BuildTxRequest` (exhibited by `TransactionQuery.CallbackOptionsLoseCompatibility`) | `TransactionQuery.BuildTxRequestFixed` |

=== FILE: contract_query.dfy ===
/**
 * The query builder of `getEventsByContractAddress`: option defaults and
 * aliases, the ordered validation chain, the `size` cap, the route segments,
 * the query-string entries and the endpoint template.
 */
module ContractQuery {
  import opened Results
  import opened Js
  import opened Host

  const NoEventServer := "No event server configured"
  const InvalidAddress := "Invalid contract address provided"
  const EventNameNeedsAddress := "Usage of event name filtering requires a contract address"
  const InvalidFromTimestamp := "Invalid fromTimestamp provided"
  const InvalidSize := "Invalid size provided"
  const InvalidPage := "Invalid page provided"
  const BlockNumberNeedsEventName := "Usage of block number filtering requires an event name"

  /** The largest page size the event server accepts. */
  const MaxSize: real := 200.0

  /**
   * The caller's options object. `None` is a property the object does not
   * have; `Some(Undef)` is a property explicitly set to `undefined`, which
   * `Object.assign` copies over a default.
   */
  datatype Options = Options(
    sinceTimestamp: Option<JsVal>,
    since: Option<JsVal>,
    fromTimestamp: Option<JsVal>,
    eventName: Option<JsVal>,
    blockNumber: Option<JsVal>,
    size: Option<JsVal>,
    page: Option<JsVal>,
    onlyConfirmed: Option<JsVal>,
    onlyUnconfirmed: Option<JsVal>,
    previousLastEventFingerprint: Option<JsVal>,
    previousFingerprint: Option<JsVal>,
    fingerprint: Option<JsVal>,
    sort: Option<JsVal>,
    filters: Option<JsVal>,
    rawResponse: Option<JsVal>)

  /** What the owning TronWeb instance contributes: its event server and its compatibility flag. */
  datatype Config = Config(eventServer: JsVal, trongridCompatible: JsVal)

  /** The options after defaults are applied and aliases are resolved. */
  datatype Settings = Settings(
    timestamp: JsVal,
    eventName: JsVal,
    blockNumber: JsVal,
    size: JsVal,
    page: JsVal,
    onlyConfirmed: JsVal,
    onlyUnconfirmed: JsVal,
    fingerprint: JsVal,
    sort: JsVal,
    filters: JsVal)

  /** The query-string keys the builder can set. */
  datatype QueryKey =
    | Size | Page | Filters | Since | FromTimestamp | OnlyConfirmed | OnlyUnconfirmed | Sort | Fingerprint
  {
    /** The key as it appears in the query string. */
    function Name(): string {
      match this
      case Size => "size"
      case Page => "page"
      case Filters => "filters"
      case Since => "since"
      case FromTimestamp => "fromTimestamp"
      case OnlyConfirmed => "onlyConfirmed"
      case OnlyUnconfirmed => "onlyUnconfirmed"
      case Sort => "sort"
      case Fingerprint => "fingerprint"
    }

    /** The position of the key in the order the builder creates properties. */
    function Rank(): nat {
      match this
      case Size => 0
      case Page => 1
      case Filters => 2
      case Since => 3
      case FromTimestamp => 4
      case OnlyConfirmed => 5
      case OnlyUnconfirmed => 6
      case Sort => 7
      case Fingerprint => 8
    }
  }

  /** One property of the query object. */
  type Entry = (QueryKey, JsVal)

  /** An outbound request: route segments, query-string entries in insertion order, and the endpoint path. */
  datatype Request = Request(route: seq<JsVal>, query: seq<Entry>, endpoint: string)

  /** The operands of the timestamp alias chain, in the order they are tried. */
  function TimestampAliases(o: Options): seq<JsVal> {
    [o.fromTimestamp.GetOr(Undef), o.sinceTimestamp.GetOr(Num(0.0)), o.since.GetOr(Undef)]
  }

  /** The operands of the fingerprint alias chain, in the order they are tried. */
  function FingerprintAliases(o: Options): seq<JsVal> {
    [o.fingerprint.GetOr(Undef), o.previousFingerprint.GetOr(Undef), o.previousLastEventFingerprint.GetOr(Undef)]
  }

  /** `Object.assign` of the defaults with the options, then the two `||` alias chains. */
  function Resolve(o: Options): Settings {
    Settings(
      timestamp := OrChain(TimestampAliases(o)),
      eventName := o.eventName.GetOr(Bool(false)),
      blockNumber := o.blockNumber.GetOr(Bool(false)),
      size := o.size.GetOr(Num(20.0)),
      page := o.page.GetOr(Num(1.0)),
      onlyConfirmed := o.onlyConfirmed.GetOr(Undef),
      onlyUnconfirmed := o.onlyUnconfirmed.GetOr(Undef),
      fingerprint := OrChain(FingerprintAliases(o)),
      sort := o.sort.GetOr(Undef),
      filters := o.filters.GetOr(Undef))
  }

  /** A `size` above the cap becomes the cap; any other value is kept. */
  function CapSize(h: Host, size: JsVal): JsVal {
    if Exceeds(h, size, MaxSize) then Num(MaxSize) else size
  }

  /** `typeof v === 'object' && Object.keys(v).length > 0`, for every `v` other than null. */
  predicate HasOwnKeys(v: JsVal) {
    match v
    case Obj(props) => |props| > 0
    case Arr(items) => |items| > 0
    case _ => false
  }

  /** The route segments: formatted address, event name, block number, each only when truthy. */
  function Route(h: Host, address: JsVal, s: Settings): seq<JsVal> {
    (if Truthy(address) then [Str(h.fromHex(address))] else [])
    + (if Truthy(s.eventName) then [s.eventName] else [])
    + (if Truthy(s.blockNumber) then [s.blockNumber] else [])
  }

  /** An entry `key: v` when `v` is truthy, nothing otherwise. */
  function IfTruthy(key: QueryKey, v: JsVal): seq<Entry> {
    if Truthy(v) then [(key, v)] else []
  }

  /**
   * The entry the builder creates for `key`, if any. The timestamp is stored
   * under both `since` and `fromTimestamp`; `onlyUnconfirmed` is skipped
   * whenever `onlyConfirmed` is truthy.
   */
  function Slot(h: Host, s: Settings, size: JsVal, key: QueryKey): seq<Entry> {
    match key
    case Size => [(Size, size)]
    case Page => [(Page, s.page)]
    case Filters => if HasOwnKeys(s.filters) then [(Filters, Str(h.toJson(s.filters)))] else []
    case Since => IfTruthy(Since, s.timestamp)
    case FromTimestamp => IfTruthy(FromTimestamp, s.timestamp)
    case OnlyConfirmed => IfTruthy(OnlyConfirmed, s.onlyConfirmed)
    case OnlyUnconfirmed => if Truthy(s.onlyConfirmed) then [] else IfTruthy(OnlyUnconfirmed, s.onlyUnconfirmed)
    case Sort => IfTruthy(Sort, s.sort)
    case Fingerprint => IfTruthy(Fingerprint, s.fingerprint)
  }

  /**
   * The order in which the builder creates the query's properties. In
   * `qs.fromTimestamp = qs.since = t` the inner assignment completes first,
   * so `since` is created before `fromTimestamp`.
   */
  const CreationOrder: seq<QueryKey> :=
    [Size, Page, Filters, Since, FromTimestamp, OnlyConfirmed, OnlyUnconfirmed, Sort, Fingerprint]

  /** The entries of the slots of `keys`, in that order. */
  function Collect(h: Host, s: Settings, size: JsVal, keys: seq<QueryKey>): seq<Entry> {
    if |keys| == 0 then [] else Slot(h, s, size, keys[0]) + Collect(h, s, size, keys[1..])
  }

  /** The query-string entries in property-creation order. */
  function Query(h: Host, s: Settings, size: JsVal): seq<Entry> {
    Collect(h, s, size, CreationOrder)
  }

  /** The query object as `querystring.stringify` sees it: names and values in creation order. */
  function Named(q: seq<Entry>): seq<(string, JsVal)> {
    seq(|q|, i requires 0 <= i < |q| => (q[i].0.Name(), q[i].1))
  }

  /** `Array.prototype.join` of already-converted strings. */
  function Join(parts: seq<string>, sep: string): string {
    if |parts| == 0 then ""
    else if |parts| == 1 then parts[0]
    else parts[0] + sep + Join(parts[1..], sep)
  }

  /** `routeParams.join('/')`: each segment converted by ToString. */
  function JoinRoute(h: Host, route: seq<JsVal>): string {
    Join(seq(|route|, i requires 0 <= i < |route| => ToString(h, route[i])), "/")
  }

  const CompatiblePrefix := "v1/contracts/"
  const NativePrefix := "event/contract/"

  /**
   * The request built once every rule holds: the route segments, the query
   * entries and the endpoint template selected by the compatibility flag.
   */
  function Assemble(h: Host, compatible: JsVal, address: JsVal, s: Settings): (req: Request)
    requires Truthy(s.eventName) ==> Truthy(address)
    requires Truthy(s.blockNumber) ==> Truthy(s.eventName)
    ensures RouteFollowsFilters(h, address, s, req.route)
    ensures QueryFollowsSettings(h, s, CapSize(h, s.size), req.query)
    ensures !Exceeds(h, req.query[0].1, MaxSize)
    ensures Truthy(compatible) ==>
      req.endpoint == CompatiblePrefix + JoinRoute(h, req.route) + "/events?" + h.stringify(Named(req.query))
    ensures !Truthy(compatible) ==>
      req.endpoint == NativePrefix + JoinRoute(h, req.route) + "?" + h.stringify(Named(req.query))
  {
    var route := Route(h, address, s);
    var query := Query(h, s, CapSize(h, s.size));
    RouteShape(h, address, s);
    QueryShape(h, s, CapSize(h, s.size));
    CapSizeBound(h, s.size);
    var endpoint :=
      if Truthy(compatible)
      then CompatiblePrefix + JoinRoute(h, route) + "/events?" + h.stringify(Named(query))
      else NativePrefix + JoinRoute(h, route) + "?" + h.stringify(Named(query));
    Request(route, query, endpoint)
  }

  /** The validation rules of the builder. */
  datatype Rule =
    | ServerConfigured
    | AddressValid
    | EventNameHasAddress
    | TimestampInteger
    | SizeInteger
    | PageInteger
    | BlockNumberHasEventName

  /** The order in which the rules are checked. */
  const RuleOrder: seq<Rule> := [
    ServerConfigured, AddressValid, EventNameHasAddress, TimestampInteger,
    SizeInteger, PageInteger, BlockNumberHasEventName]

  /** The message a broken rule reports. */
  function Message(rule: Rule): string {
    match rule
    case ServerConfigured => NoEventServer
    case AddressValid => InvalidAddress
    case EventNameHasAddress => EventNameNeedsAddress
    case TimestampInteger => InvalidFromTimestamp
    case SizeInteger => InvalidSize
    case PageInteger => InvalidPage
    case BlockNumberHasEventName => BlockNumberNeedsEventName
  }

  /** Whether a call breaks `rule`. */
  predicate Broken(h: Host, cfg: Config, address: JsVal, s: Settings, rule: Rule) {
    match rule
    case ServerConfigured => !Truthy(cfg.eventServer)
    case AddressValid => !h.isAddress(address)
    case EventNameHasAddress => Truthy(s.eventName) && !Truthy(address)
    case TimestampInteger => !s.timestamp.Undef? && !h.isInteger(s.timestamp)
    case SizeInteger => !h.isInteger(s.size)
    case PageInteger => !h.isInteger(s.page)
    case BlockNumberHasEventName => Truthy(s.blockNumber) && !Truthy(s.eventName)
  }

  /** The first rule of `rules` that the call breaks, if any. */
  function FirstBroken(h: Host, cfg: Config, address: JsVal, s: Settings, rules: seq<Rule>): Option<Rule> {
    if |rules| == 0 then None
    else if Broken(h, cfg, address, s, rules[0]) then Some(rules[0])
    else FirstBroken(h, cfg, address, s, rules[1..])
  }

  /** The address argument after its default: an omitted address is `false`. */
  function AddressArg(address: JsVal): JsVal {
    ArgOr(address, Bool(false))
  }

  /**
   * The synchronous part of `getEventsByContractAddress` when a callback is
   * given: either the request it sends, the message it hands to the callback,
   * or the TypeError that `Object.keys(null)` throws for `filters: null`.
   */
  function BuildRequest(h: Host, cfg: Config, address: JsVal, o: Options): (r: Result<Request, Fault>)
    ensures r.Success? ==> Truthy(cfg.eventServer) && h.isAddress(AddressArg(address))
    ensures r.Success? ==> h.isInteger(Resolve(o).size) && h.isInteger(Resolve(o).page)
    ensures r.Success? ==>
      var a, s := AddressArg(address), Resolve(o);
      && (Truthy(s.eventName) ==> Truthy(a))
      && (Truthy(s.blockNumber) ==> Truthy(s.eventName))
      && r.value == Assemble(h, cfg.trongridCompatible, a, s)
  {
    var s := Resolve(o);
    var a := AddressArg(address);
    if !Truthy(cfg.eventServer) then Failure(Reported(Str(NoEventServer)))
    else if !h.isAddress(a) then Failure(Reported(Str(InvalidAddress)))
    else if Truthy(s.eventName) && !Truthy(a) then Failure(Reported(Str(EventNameNeedsAddress)))
    else if !s.timestamp.Undef? && !h.isInteger(s.timestamp) then Failure(Reported(Str(InvalidFromTimestamp)))
    else if !h.isInteger(s.size) then Failure(Reported(Str(InvalidSize)))
    else if !h.isInteger(s.page) then Failure(Reported(Str(InvalidPage)))
    else if Truthy(s.blockNumber) && !Truthy(s.eventName) then Failure(Reported(Str(BlockNumberNeedsEventName)))
    else if s.filters.Null? then Failure(TypeError)
    else Success(Assemble(h, cfg.trongridCompatible, a, s))
  }

  /**
   * Error precedence: the first broken rule, in `RuleOrder`, decides the
   * message and no request is built; when no rule is broken the only
   * remaining failure is the TypeError thrown for `filters: null`.
   */
  lemma ErrorPrecedence(h: Host, cfg: Config, address: JsVal, o: Options)
    ensures
      var r := BuildRequest(h, cfg, address, o);
      match FirstBroken(h, cfg, AddressArg(address), Resolve(o), RuleOrder)
      case Some(rule) => r == Failure(Reported(Str(Message(rule))))
      case None => (r.Failure? <==> Resolve(o).filters.Null?) && (r.Failure? ==> r == Failure(TypeError))
  {
    var a, s := AddressArg(address), Resolve(o);
    var rs := RuleOrder;
    var k := 0;
    while k < |rs| && !Broken(h, cfg, a, s, rs[k])
      invariant 0 <= k <= |rs|
      invariant forall j :: 0 <= j < k ==> !Broken(h, cfg, a, s, rs[j])
    {
      k := k + 1;
    }
    FirstBrokenSkips(h, cfg, a, s, rs, k);
    if k < |rs| {
      assert rs[k..][0] == rs[k];
    }
    // The if-chain tests each rule's condition directly rather than through
    // `Broken`, so every rule the loop passed is named here once.
    assert k > 0 ==> !Broken(h, cfg, a, s, rs[0]);
    assert k > 1 ==> !Broken(h, cfg, a, s, rs[1]);
    assert k > 2 ==> !Broken(h, cfg, a, s, rs[2]);
    assert k > 3 ==> !Broken(h, cfg, a, s, rs[3]);
    assert k > 4 ==> !Broken(h, cfg, a, s, rs[4]);
    assert k > 5 ==> !Broken(h, cfg, a, s, rs[5]);
    assert k > 6 ==> !Broken(h, cfg, a, s, rs[6]);
  }

  /** Rules that hold do not affect which rule is reported first. */
  lemma {:induction false} FirstBrokenSkips(h: Host, cfg: Config, a: JsVal, s: Settings, rules: seq<Rule>, k: int)
    requires 0 <= k <= |rules|
    requires forall j :: 0 <= j < k ==> !Broken(h, cfg, a, s, rules[j])
    ensures FirstBroken(h, cfg, a, s, rules) == FirstBroken(h, cfg, a, s, rules[k..])
  {
    if k > 0 {
      FirstBrokenSkips(h, cfg, a, s, rules[1..], k - 1);
      assert rules[1..][k - 1..] == rules[k..];
    }
  }

  /** Alias resolution: the first truthy alias wins, otherwise the last one (with `sinceTimestamp` defaulting to 0). */
  lemma AliasResolution(o: Options)
    ensures Truthy(o.fromTimestamp.GetOr(Undef)) ==> Resolve(o).timestamp == o.fromTimestamp.value
    ensures !Truthy(o.fromTimestamp.GetOr(Undef)) && Truthy(o.sinceTimestamp.GetOr(Num(0.0)))
      ==> Resolve(o).timestamp == o.sinceTimestamp.value
    ensures !Truthy(o.fromTimestamp.GetOr(Undef)) && !Truthy(o.sinceTimestamp.GetOr(Num(0.0)))
      ==> Resolve(o).timestamp == o.since.GetOr(Undef)
    ensures Truthy(o.fingerprint.GetOr(Undef)) ==> Resolve(o).fingerprint == o.fingerprint.value
    ensures !Truthy(o.fingerprint.GetOr(Undef)) && Truthy(o.previousFingerprint.GetOr(Undef))
      ==> Resolve(o).fingerprint == o.previousFingerprint.value
    ensures !Truthy(o.fingerprint.GetOr(Undef)) && !Truthy(o.previousFingerprint.GetOr(Undef))
      ==> Resolve(o).fingerprint == o.previousLastEventFingerprint.GetOr(Undef)
  {
    var ts, fp := TimestampAliases(o), FingerprintAliases(o);
    OrChainFirstTruthy(ts);
    OrChainFirstTruthy(fp);
    assert IsFirstTruthy(ts, 0) || IsFirstTruthy(ts, 1) || IsFirstTruthy(ts, 2) || NoneTruthy(ts);
    assert IsFirstTruthy(fp, 0) || IsFirstTruthy(fp, 1) || IsFirstTruthy(fp, 2) || NoneTruthy(fp);
  }

  /** The cap never lets a size above 200 through, leaves any other size alone, and is idempotent. */
  lemma CapSizeBound(h: Host, size: JsVal)
    ensures !Exceeds(h, CapSize(h, size), MaxSize)
    ensures Exceeds(h, size, MaxSize) ==> CapSize(h, size) == Num(200.0)
    ensures !Exceeds(h, size, MaxSize) ==> CapSize(h, size) == size
    ensures CapSize(h, CapSize(h, size)) == CapSize(h, size)
    ensures size.Num? ==> CapSize(h, size) == Num(if size.x > 200.0 then 200.0 else size.x)
  {
  }

  /** `q` binds `key` to `v` and to nothing else. */
  ghost predicate Binds(q: seq<Entry>, key: QueryKey, v: JsVal) {
    (key, v) in q && forall w :: (key, w) in q ==> w == v
  }

  /** `q` has no entry for `key`. */
  ghost predicate Lacks(q: seq<Entry>, key: QueryKey) {
    forall w :: (key, w) !in q
  }

  /** Every key of `q` has a rank in `[lo, hi)`. */
  predicate RanksWithin(q: seq<Entry>, lo: nat, hi: nat) {
    forall i :: 0 <= i < |q| ==> lo <= q[i].0.Rank() < hi
  }

  /** The keys of `q` follow the creation order strictly, so none repeats. */
  predicate InCreationOrder(q: seq<Entry>) {
    forall i, j :: 0 <= i < j < |q| ==> q[i].0.Rank() < q[j].0.Rank()
  }

  /**
   * What the builder promises of the query object: `size` then `page` first,
   * the timestamp pair exactly when the resolved timestamp is truthy,
   * `filters` exactly for a non-empty object, never both confirmation flags,
   * `sort` and the resolved fingerprint exactly when truthy, and every key at
   * most once in creation order.
   */
  ghost predicate QueryFollowsSettings(h: Host, s: Settings, size: JsVal, q: seq<Entry>) {
    && InCreationOrder(q)
    && |q| >= 2 && q[0] == (Size, size) && q[1] == (Page, s.page)
    && (Truthy(s.timestamp) ==> Binds(q, Since, s.timestamp) && Binds(q, FromTimestamp, s.timestamp))
    && (!Truthy(s.timestamp) ==> Lacks(q, Since) && Lacks(q, FromTimestamp))
    && (HasOwnKeys(s.filters) ==> Binds(q, Filters, Str(h.toJson(s.filters))))
    && (!HasOwnKeys(s.filters) ==> Lacks(q, Filters))
    && (Lacks(q, OnlyConfirmed) || Lacks(q, OnlyUnconfirmed))
    && (Truthy(s.onlyConfirmed) ==> Binds(q, OnlyConfirmed, s.onlyConfirmed))
    && (!Truthy(s.onlyConfirmed) ==> Lacks(q, OnlyConfirmed))
    && (Truthy(s.onlyUnconfirmed) && !Truthy(s.onlyConfirmed) ==> Binds(q, OnlyUnconfirmed, s.onlyUnconfirmed))
    && (!Truthy(s.onlyUnconfirmed) || Truthy(s.onlyConfirmed) ==> Lacks(q, OnlyUnconfirmed))
    && (Truthy(s.sort) ==> Binds(q, Sort, s.sort))
    && (!Truthy(s.sort) ==> Lacks(q, Sort))
    && (Truthy(s.fingerprint) ==> Binds(q, Fingerprint, s.fingerprint))
    && (!Truthy(s.fingerprint) ==> Lacks(q, Fingerprint))
  }

  /**
   * What the builder promises of the route once validation passes: a prefix
   * of formatted address, event name, block number, each segment present
   * exactly when its value is truthy.
   */
  ghost predicate RouteFollowsFilters(h: Host, address: JsVal, s: Settings, route: seq<JsVal>) {
    && |route| <= 3
    && route == [Str(h.fromHex(address)), s.eventName, s.blockNumber][..|route|]
    && (|route| >= 1 <==> Truthy(address))
    && (|route| >= 2 <==> Truthy(s.eventName))
    && (|route| == 3 <==> Truthy(s.blockNumber))
  }

  /** A slot holds at most one entry, and only under its own key. */
  lemma SlotHoldsItsKey(h: Host, s: Settings, size: JsVal, key: QueryKey)
    ensures |Slot(h, s, size, key)| <= 1
    ensures forall e :: e in Slot(h, s, size, key) ==> e.0 == key
  {
  }

  /** An entry is collected exactly when its key is among `keys` and its slot holds it. */
  lemma {:induction false} CollectMembers(h: Host, s: Settings, size: JsVal, keys: seq<QueryKey>)
    ensures forall k, w :: (k, w) in Collect(h, s, size, keys) <==> k in keys && (k, w) in Slot(h, s, size, k)
  {
    if |keys| > 0 {
      CollectMembers(h, s, size, keys[1..]);
      SlotHoldsItsKey(h, s, size, keys[0]);
      assert keys == [keys[0]] + keys[1..];
    }
  }

  /** Appending entries of higher rank keeps the creation order. */
  lemma AppendInOrder(a: seq<Entry>, b: seq<Entry>, lo: nat, mid: nat, hi: nat)
    requires lo <= mid <= hi
    requires InCreationOrder(a) && RanksWithin(a, lo, mid)
    requires InCreationOrder(b) && RanksWithin(b, mid, hi)
    ensures InCreationOrder(a + b) && RanksWithin(a + b, lo, hi)
  {
  }

  /** Slots collected over keys of strictly increasing rank come out in creation order. */
  lemma {:induction false} CollectInOrder(h: Host, s: Settings, size: JsVal, keys: seq<QueryKey>)
    requires forall i, j :: 0 <= i < j < |keys| ==> keys[i].Rank() < keys[j].Rank()
    ensures InCreationOrder(Collect(h, s, size, keys))
    ensures |keys| > 0 ==> RanksWithin(Collect(h, s, size, keys), keys[0].Rank(), 9)
  {
    if |keys| > 0 {
      var r := keys[0].Rank();
      var slot, rest := Slot(h, s, size, keys[0]), Collect(h, s, size, keys[1..]);
      CollectInOrder(h, s, size, keys[1..]);
      SlotHoldsItsKey(h, s, size, keys[0]);
      assert RanksWithin(slot, r, r + 1) by {
        forall i | 0 <= i < |slot| ensures slot[i].0 == keys[0] {
          assert slot[i] in slot;
        }
      }
      assert InCreationOrder(slot);
      if |keys| > 1 {
        assert RanksWithin(rest, r + 1, 9);
      }
      AppendInOrder(slot, rest, r, r + 1, 9);
    }
  }

  /** The query's keys appear in creation order, each at most once. */
  lemma QueryInCreationOrder(h: Host, s: Settings, size: JsVal)
    ensures InCreationOrder(Query(h, s, size))
  {
    CollectInOrder(h, s, size, CreationOrder);
  }

  /** Every key is created by its own slot and by nothing else. */
  lemma QueryEntryFromSlot(h: Host, s: Settings, size: JsVal)
    ensures forall k, w :: (k, w) in Query(h, s, size) <==> (k, w) in Slot(h, s, size, k)
  {
    CollectMembers(h, s, size, CreationOrder);
    forall k: QueryKey ensures k in CreationOrder {
      assert CreationOrder[k.Rank()] == k;
    }
  }

  /** `Binds` and `Lacks` of the query are read off the key's slot. */
  lemma SlotDecidesEntry(h: Host, s: Settings, size: JsVal, key: QueryKey)
    ensures Slot(h, s, size, key) == [] ==> Lacks(Query(h, s, size), key)
    ensures forall v :: Slot(h, s, size, key) == [(key, v)] ==> Binds(Query(h, s, size), key, v)
  {
    QueryEntryFromSlot(h, s, size);
  }

  /** The query object keeps every promise of `QueryFollowsSettings`. */
  lemma QueryShape(h: Host, s: Settings, size: JsVal)
    ensures QueryFollowsSettings(h, s, size, Query(h, s, size))
  {
    QueryInCreationOrder(h, s, size);
    SlotDecidesEntry(h, s, size, Filters);
    SlotDecidesEntry(h, s, size, Since);
    SlotDecidesEntry(h, s, size, FromTimestamp);
    SlotDecidesEntry(h, s, size, OnlyConfirmed);
    SlotDecidesEntry(h, s, size, OnlyUnconfirmed);
    SlotDecidesEntry(h, s, size, Sort);
    SlotDecidesEntry(h, s, size, Fingerprint);
    QueryHead(h, s, size);
  }

  /** The query starts with `size` and then `page`. */
  lemma QueryHead(h: Host, s: Settings, size: JsVal)
    ensures |Query(h, s, size)| >= 2
    ensures Query(h, s, size)[0] == (Size, size) && Query(h, s, size)[1] == (Page, s.page)
  {
    var tail := CreationOrder[1..];
    assert CreationOrder[0] == Size && tail[0] == Page && tail[1..] == CreationOrder[2..];
    assert Collect(h, s, size, tail) == [(Page, s.page)] + Collect(h, s, size, CreationOrder[2..]);
  }

  /** Once validation passes, the route keeps every promise of `RouteFollowsFilters`. */
  lemma RouteShape(h: Host, address: JsVal, s: Settings)
    requires Truthy(s.eventName) ==> Truthy(address)
    requires Truthy(s.blockNumber) ==> Truthy(s.eventName)
    ensures RouteFollowsFilters(h, address, s, Route(h, address, s))
  {
  }
}

=== FILE: event_client.dfy ===
/**
 * `getEventsByContractAddress` end to end: the request is built, the event
 * server answers it, and the answer goes through `resultManager` with the
 * caller's `rawResponse` and the configured compatibility flag. The server
 * is a function from endpoint to payload; transport failures are not part
 * of this model, and the callback is taken not to throw.
 */
module EventClient {
  import opened Results
  import opened Js
  import opened Host
  import opened ContractQuery
  import opened ResultManager

  /** The options `resultManager` receives: the caller's object, with the flag written onto it. */
  function NormalizeWith(cfg: Config, o: Options): NormalizeOptions {
    NormalizeOptions(cfg.trongridCompatible, o.rawResponse.GetOr(Undef))
  }

  /**
   * How a call ends. `Thrown`: `Object.keys(null)` throws out of the call
   * itself and no callback runs. `Delivered`: the callback receives an error
   * or a result. A TypeError raised inside `.then` (`data.map` on a value
   * that is not an array) is caught by `.catch`. It has no `response`
   * property, so the callback receives the TypeError itself as its error:
   * `Delivered(Failure(TypeError))`.
   */
  datatype Outcome = Thrown | Delivered(result: Result<Response, Fault>)

  /** The outcome of one call, with `server` answering the requested endpoint. */
  function ContractEvents(h: Host, cfg: Config, address: JsVal, o: Options, server: string -> JsVal): (r: Outcome)
    ensures r.Thrown? <==>
      FirstBroken(h, cfg, AddressArg(address), Resolve(o), RuleOrder).None? && Resolve(o).filters.Null?
    ensures FirstBroken(h, cfg, AddressArg(address), Resolve(o), RuleOrder).Some? ==>
      r == Delivered(Failure(Reported(Str(Message(FirstBroken(h, cfg, AddressArg(address), Resolve(o), RuleOrder).value)))))
    ensures r == Delivered(Failure(TypeError)) <==>
      && BuildRequest(h, cfg, address, o).Success?
      && var events := server(BuildRequest(h, cfg, address, o).value.endpoint);
      && IsEnvelope(events)
      && Truthy(cfg.trongridCompatible)
      && o.rawResponse.GetOr(Undef) != Bool(true)
      && !Member(events, "data").Arr?
    ensures BuildRequest(h, cfg, address, o).Success? ==>
      r == Delivered(Normalize(h, server(BuildRequest(h, cfg, address, o).value.endpoint),
                               NormalizeOptions(cfg.trongridCompatible, o.rawResponse.GetOr(Undef))))
  {
    ErrorPrecedence(h, cfg, address, o);
    match BuildRequest(h, cfg, address, o)
    case Failure(TypeError) => Thrown
    case Failure(e) => Delivered(Failure(e))
    case Success(req) => Delivered(Normalize(h, server(req.endpoint), NormalizeWith(cfg, o)))
  }

  /** A call that fails validation sends nothing: its outcome does not depend on the server. */
  lemma RejectedCallSendsNothing(h: Host, cfg: Config, address: JsVal, o: Options, s1: string -> JsVal, s2: string -> JsVal)
    requires BuildRequest(h, cfg, address, o).Failure?
    ensures ContractEvents(h, cfg, address, o, s1) == ContractEvents(h, cfg, address, o, s2)
  {
  }

  /** A call that passes validation depends on the server only through the one endpoint it requests. */
  lemma AcceptedCallReadsOneEndpoint(h: Host, cfg: Config, address: JsVal, o: Options, s1: string -> JsVal, s2: string -> JsVal)
    requires BuildRequest(h, cfg, address, o).Success?
    requires s1(BuildRequest(h, cfg, address, o).value.endpoint) == s2(BuildRequest(h, cfg, address, o).value.endpoint)
    ensures ContractEvents(h, cfg, address, o, s1) == ContractEvents(h, cfg, address, o, s2)
  {
  }
}

=== FILE: host.dfy ===
/**
 * The helpers the event client calls but does not define: TronWeb's address
 * utilities, `utils.isInteger`, `utils.mapEvent`, `JSON.stringify`,
 * `querystring.stringify`, and the parts of JavaScript's ToNumber and
 * ToString that depend on string parsing or number formatting. Each is a
 * field of `Host`, so every property proved here holds for any behaviour of
 * those helpers.
 */
module Host {
  import opened Results
  import opened Js

  datatype Host = Host(
    isAddress: JsVal -> bool,               // tronWeb.isAddress
    isInteger: JsVal -> bool,               // utils.isInteger
    fromHex: JsVal -> string,               // tronWeb.address.fromHex
    parseNumber: JsVal -> Option<real>,     // ToNumber of a string, array, object or function; None is NaN
    formatValue: JsVal -> string,           // ToString of a number, array, object or function
    toJson: JsVal -> string,                // JSON.stringify
    stringify: seq<(string, JsVal)> -> string,  // querystring.stringify of an object with these entries, in order
    mapEvent: JsVal -> JsVal)               // utils.mapEvent

  /** JavaScript's ToNumber; None stands for NaN. */
  function ToNumber(h: Host, v: JsVal): Option<real> {
    match v
    case Undef => None
    case Null => Some(0.0)
    case Bool(b) => Some(if b then 1.0 else 0.0)
    case Num(x) => Some(x)
    case NaN => None
    case _ => h.parseNumber(v)
  }

  /** The relational comparison `v > bound` against a number: false whenever `v` coerces to NaN. */
  predicate Exceeds(h: Host, v: JsVal, bound: real) {
    match ToNumber(h, v)
    case Some(x) => x > bound
    case None => false
  }

  /** JavaScript's ToString, as used by template literals and `Array.prototype.join`. */
  function ToString(h: Host, v: JsVal): string {
    match v
    case Undef => "undefined"
    case Null => "null"
    case Bool(b) => if b then "true" else "false"
    case Str(s) => s
    case _ => h.formatValue(v)
  }
}

=== FILE: js.dfy ===
/**
 * The slice of JavaScript's value model that the event client inspects:
 * truthiness, the `||` operator, property reads on plain objects, and the
 * ways a call can end (a value handed to the callback, or a thrown TypeError).
 */
module Js {

  /**
   * A JavaScript value. Numbers are finite reals or NaN (infinities are not
   * represented). A plain object keeps its own enumerable properties in the
   * order JavaScript enumerates them, which `JSON.stringify` follows; a real
   * object binds each key at most once. A function value is given no
   * properties here; a function passed as options is modelled as an options
   * object with every recognised property absent.
   */
  datatype JsVal =
    | Undef
    | Null
    | Bool(b: bool)
    | Num(x: real)
    | NaN
    | Str(s: string)
    | Arr(items: seq<JsVal>)
    | Obj(props: seq<(string, JsVal)>)
    | Fn

  /** How a call that did not produce a result ended. */
  datatype Fault =
    | Reported(error: JsVal)  // handed to the callback's error slot
    | TypeError               // thrown by the JavaScript runtime

  /** JavaScript's ToBoolean: the falsy values are undefined, null, false, 0, NaN and "". */
  predicate Truthy(v: JsVal) {
    match v
    case Undef => false
    case Null => false
    case Bool(b) => b
    case Num(x) => x != 0.0
    case NaN => false
    case Str(s) => s != ""
    case Arr(_) => true
    case Obj(_) => true
    case Fn => true
  }

  /** `a || b`: the left operand when it is truthy, otherwise the right one. */
  function Or(a: JsVal, b: JsVal): JsVal {
    if Truthy(a) then a else b
  }

  /** `vs[0] || vs[1] || ... || vs[n-1]`, grouped to the left as JavaScript parses it. */
  function OrChain(vs: seq<JsVal>): JsVal
    requires |vs| > 0
  {
    if |vs| == 1 then vs[0] else Or(OrChain(vs[..|vs| - 1]), vs[|vs| - 1])
  }

  /** `i` is the position of the first truthy operand of `vs`. */
  predicate IsFirstTruthy(vs: seq<JsVal>, i: int) {
    0 <= i < |vs| && Truthy(vs[i]) && forall j :: 0 <= j < i ==> !Truthy(vs[j])
  }

  /** No operand of `vs` is truthy. */
  predicate NoneTruthy(vs: seq<JsVal>) {
    forall j :: 0 <= j < |vs| ==> !Truthy(vs[j])
  }

  /** An `||` chain evaluates to its first truthy operand, or to its last operand when none is truthy. */
  lemma {:induction false} OrChainFirstTruthy(vs: seq<JsVal>)
    requires |vs| > 0
    ensures forall i :: IsFirstTruthy(vs, i) ==> OrChain(vs) == vs[i]
    ensures NoneTruthy(vs) ==> OrChain(vs) == vs[|vs| - 1]
    ensures Truthy(OrChain(vs)) <==> !NoneTruthy(vs)
  {
    if |vs| > 1 {
      var init := vs[..|vs| - 1];
      OrChainFirstTruthy(init);
      forall i | IsFirstTruthy(vs, i)
        ensures OrChain(vs) == vs[i]
      {
        if i < |vs| - 1 {
          assert IsFirstTruthy(init, i);
        } else {
          assert NoneTruthy(init);
        }
      }
      if NoneTruthy(vs) {
        assert NoneTruthy(init);
      }
      if !NoneTruthy(vs) && NoneTruthy(init) {
        assert Truthy(vs[|vs| - 1]);
      }
    }
  }

  /** A property read `v.key`: only plain objects have properties the client looks up. */
  function Member(v: JsVal, key: string): JsVal {
    match v
    case Obj(props) => Lookup(props, key)
    case _ => Undef
  }

  /** The value of the first binding of `key` in an ordered property list, or `undefined`. */
  function Lookup(props: seq<(string, JsVal)>, key: string): JsVal {
    if |props| == 0 then Undef
    else if props[0].0 == key then props[0].1
    else Lookup(props[1..], key)
  }

  /** A default parameter value: JavaScript substitutes it only for `undefined`. */
  function ArgOr(v: JsVal, default: JsVal): JsVal {
    if v.Undef? then default else v
  }
}

=== FILE: result_manager.dfy ===
/**
 * `resultManager`: the four-way dispatch on the shape of the event server's
 * payload, then the reshaping selected by `trongridCompatible` and
 * `rawResponse`.
 */
module ResultManager {
  import opened Results
  import opened Js
  import opened Host

  const UnknownError := "Unknown error occurred"

  /** The two options `resultManager` reads. */
  datatype NormalizeOptions = NormalizeOptions(trongridCompatible: JsVal, rawResponse: JsVal)

  /** What the callback receives as its result: the bare data, or the `{data, meta}` envelope. */
  datatype Response = Bare(data: JsVal) | Envelope(data: JsVal, meta: JsVal)

  /** `items.map(f)`: the image of every element, in order. */
  function MapEvents(f: JsVal -> JsVal, items: seq<JsVal>): (mapped: seq<JsVal>)
    ensures |mapped| == |items|
    ensures forall i :: 0 <= i < |items| ==> mapped[i] == f(items[i])
  {
    if |items| == 0 then [] else [f(items[0])] + MapEvents(f, items[1..])
  }

  /** The payload is an envelope: not an array, with a truthy `data` property. */
  predicate IsEnvelope(events: JsVal) {
    !events.Arr? && Truthy(Member(events, "data"))
  }

  /**
   * The event data carried by a usable payload: the array itself, or the
   * envelope's `data` and `meta`.
   */
  function Payload(events: JsVal): (JsVal, JsVal)
    requires events.Arr? || IsEnvelope(events)
  {
    if events.Arr? then (events, Undef) else (Member(events, "data"), Member(events, "meta"))
  }

  /** The reshaping step: envelope in compatibility mode, bare data otherwise. */
  function Reshape(h: Host, data: JsVal, meta: JsVal, o: NormalizeOptions): Result<Response, Fault> {
    if !Truthy(o.trongridCompatible) then Success(Bare(data))
    else if o.rawResponse == Bool(true) then Success(Envelope(data, meta))
    else if data.Arr? then Success(Envelope(Arr(MapEvents(h.mapEvent, data.items)), meta))
    else Failure(TypeError)  // `data.map` is not a function
  }

  /** What `resultManager(events, options, callback)` hands to its callback. */
  function Normalize(h: Host, events: JsVal, o: NormalizeOptions): (r: Result<Response, Fault>)
    ensures !Truthy(events) ==> r == Failure(Reported(Str(UnknownError)))
    ensures Truthy(events) && !events.Arr? && !IsEnvelope(events) ==> r == Failure(Reported(events))
    ensures r.Success? <==>
      && (events.Arr? || IsEnvelope(events))
      && (!Truthy(o.trongridCompatible) || o.rawResponse == Bool(true) || Payload(events).0.Arr?)
    ensures r.Success? ==> (r.value.Envelope? <==> Truthy(o.trongridCompatible))
    ensures r.Success? && !Truthy(o.trongridCompatible) ==> r.value == Bare(Payload(events).0)
    ensures r.Success? && Truthy(o.trongridCompatible) && o.rawResponse == Bool(true)
      ==> r.value == Envelope(Payload(events).0, Payload(events).1)
    ensures r.Success? && Truthy(o.trongridCompatible) && o.rawResponse != Bool(true) ==>
      var items := Payload(events).0.items;
      && r.value.meta == Payload(events).1
      && r.value.data.Arr?
      && |r.value.data.items| == |items|
      && forall i :: 0 <= i < |items| ==> r.value.data.items[i] == h.mapEvent(items[i])
    ensures r == Failure(TypeError) <==>
      && IsEnvelope(events)
      && Truthy(o.trongridCompatible)
      && o.rawResponse != Bool(true)
      && !Member(events, "data").Arr?
  {
    if !Truthy(events) then Failure(Reported(Str(UnknownError)))
    else if events.Arr? then Reshape(h, events, Undef, o)
    else if Truthy(Member(events, "data")) then Reshape(h, Member(events, "data"), Member(events, "meta"), o)
    else Failure(Reported(events))
  }

  /** An error handed to the callback is either the fixed message or the payload itself. */
  lemma ReportedErrors(h: Host, events: JsVal, o: NormalizeOptions)
    ensures Normalize(h, events, o).Failure? && Normalize(h, events, o).error.Reported? ==>
      var e := Normalize(h, events, o).error.error;
      (e == Str(UnknownError) && !Truthy(events)) || (e == events && Truthy(events))
  {
  }

  /** Outside compatibility mode the result depends neither on `rawResponse` nor on `mapEvent`. */
  lemma BareIgnoresMapping(h1: Host, h2: Host, events: JsVal, o1: NormalizeOptions, o2: NormalizeOptions)
    requires !Truthy(o1.trongridCompatible) && !Truthy(o2.trongridCompatible)
    ensures Normalize(h1, events, o1) == Normalize(h2, events, o2)
  {
  }

  /** A raw envelope carries exactly the data the bare form would return. */
  lemma RawEnvelopeMatchesBare(h: Host, events: JsVal, compatible: JsVal, bare: JsVal)
    requires Truthy(compatible) && !Truthy(bare)
    requires Normalize(h, events, NormalizeOptions(bare, Undef)).Success?
    ensures
      var raw := Normalize(h, events, NormalizeOptions(compatible, Bool(true)));
      var plain := Normalize(h, events, NormalizeOptions(bare, Undef));
      raw.Success? && raw.value.Envelope? && raw.value.data == plain.value.data
  {
  }

  /** With an identity `mapEvent`, the mapped envelope equals the raw one. */
  lemma IdentityMappingIsRaw(h: Host, events: JsVal, compatible: JsVal)
    requires Truthy(compatible)
    requires forall e :: h.mapEvent(e) == e
    ensures Normalize(h, events, NormalizeOptions(compatible, Undef)).Success? ==>
      Normalize(h, events, NormalizeOptions(compatible, Undef)) == Normalize(h, events, NormalizeOptions(compatible, Bool(true)))
  {
    if events.Arr? || IsEnvelope(events) {
      var data := Payload(events).0;
      if data.Arr? {
        assert MapEvents(h.mapEvent, data.items) == data.items;
      }
    }
  }
}

=== FILE: results.dfy ===
/** Option and Result datatypes shared by every module of the event client. */
module Results {

  /** A value that may be missing: a property that an options object does not have. */
  datatype Option<+T> = None | Some(value: T) {

    /** The carried value, or `default` when there is none. */
    function GetOr(default: T): T {
      match this
      case Some(v) => v
      case None => default
    }
  }

  /** The outcome of a call: a value, or the reason it failed. */
  datatype Result<+R, +E> = Success(value: R) | Failure(error: E)
}

=== FILE: transaction_query.dfy ===
/**
 * Endpoint selection of `getEventsByTransactionID`, as written and with the
 * compatibility flag applied after the options-as-callback shift.
 */
module TransactionQuery {
  import opened Results
  import opened Js
  import opened Host
  import ContractQuery
  import opened ResultManager

  /**
   * The second argument: an options object (of which only `rawResponse` is
   * read later), or the callback itself passed in the options position.
   */
  datatype OptionsArg = ObjectOptions(rawResponse: Option<JsVal>) | CallbackOptions

  /** The endpoint requested and the options its response is normalised with. */
  datatype TxRequest = TxRequest(endpoint: string, normalize: NormalizeOptions)

  /** `v1/transactions/{id}/events` when compatible, `event/transaction/{id}` otherwise. */
  function TxEndpoint(h: Host, compatible: JsVal, transactionId: JsVal): string {
    if Truthy(compatible)
    then "v1/transactions/" + ToString(h, transactionId) + "/events"
    else "event/transaction/" + ToString(h, transactionId)
  }

  /**
   * The compatible and the native templates never produce the same endpoint,
   * whatever the two transaction IDs are.
   */
  lemma TemplatesDiffer(h: Host, c1: JsVal, id1: JsVal, c2: JsVal, id2: JsVal)
    requires Truthy(c1) && !Truthy(c2)
    ensures TxEndpoint(h, c1, id1) != TxEndpoint(h, c2, id2)
  {
    assert TxEndpoint(h, c1, id1)[0] == 'v';
    assert TxEndpoint(h, c2, id2)[0] == 'e';
  }

  /**
   * The code as written: the flag is stored on the options argument before
   * that argument is replaced by `{}` when it is the callback, so in that
   * case the normaliser sees no flag and the native template is used.
   */
  function BuildTxRequest(h: Host, cfg: ContractQuery.Config, transactionId: JsVal, arg: OptionsArg): (r: Result<TxRequest, Fault>)
    ensures r.Failure? <==> !Truthy(cfg.eventServer)
    ensures r.Failure? ==> r.error == Reported(Str(ContractQuery.NoEventServer))
    ensures r.Success? && arg.CallbackOptions? ==>
      r.value.normalize == NormalizeOptions(Undef, Undef)
      && r.value.endpoint == "event/transaction/" + ToString(h, ArgOr(transactionId, Bool(false)))
    ensures r.Success? && arg.ObjectOptions? ==>
      r.value.normalize == NormalizeOptions(cfg.trongridCompatible, arg.rawResponse.GetOr(Undef))
      && (Truthy(cfg.trongridCompatible) ==>
            r.value.endpoint == "v1/transactions/" + ToString(h, ArgOr(transactionId, Bool(false))) + "/events")
      && (!Truthy(cfg.trongridCompatible) ==>
            r.value.endpoint == "event/transaction/" + ToString(h, ArgOr(transactionId, Bool(false))))
  {
    var id := ArgOr(transactionId, Bool(false));
    var o := match arg
      case CallbackOptions => NormalizeOptions(Undef, Undef)
      case ObjectOptions(raw) => NormalizeOptions(cfg.trongridCompatible, raw.GetOr(Undef));
    if !Truthy(cfg.eventServer) then Failure(Reported(Str(ContractQuery.NoEventServer)))
    else
      Success(TxRequest(TxEndpoint(h, o.trongridCompatible, id), o))
  }

  /** The corrected builder: the flag is taken from the configuration whatever the second argument is. */
  function BuildTxRequestFixed(h: Host, cfg: ContractQuery.Config, transactionId: JsVal, arg: OptionsArg): (r: Result<TxRequest, Fault>)
    ensures r.Failure? <==> !Truthy(cfg.eventServer)
    ensures r.Failure? ==> r.error == Reported(Str(ContractQuery.NoEventServer))
    ensures r.Success? ==> r.value.normalize.trongridCompatible == cfg.trongridCompatible
    ensures r.Success? && Truthy(cfg.trongridCompatible) ==>
      r.value.endpoint == "v1/transactions/" + ToString(h, ArgOr(transactionId, Bool(false))) + "/events"
    ensures r.Success? && !Truthy(cfg.trongridCompatible) ==>
      r.value.endpoint == "event/transaction/" + ToString(h, ArgOr(transactionId, Bool(false)))
  {
    var id := ArgOr(transactionId, Bool(false));
    var raw := match arg
      case CallbackOptions => Undef
      case ObjectOptions(raw) => raw.GetOr(Undef);
    var o := NormalizeOptions(cfg.trongridCompatible, raw);
    if !Truthy(cfg.eventServer) then Failure(Reported(Str(ContractQuery.NoEventServer)))
    else
      Success(TxRequest(TxEndpoint(h, o.trongridCompatible, id), o))
  }

  /** With an options object the two builders agree. */
  lemma FixedAgreesOnObjectOptions(h: Host, cfg: ContractQuery.Config, transactionId: JsVal, raw: Option<JsVal>)
    ensures BuildTxRequest(h, cfg, transactionId, ObjectOptions(raw))
         == BuildTxRequestFixed(h, cfg, transactionId, ObjectOptions(raw))
  {
  }

  /** A host whose helpers all return fixed values. */
  function ConstantHost(): Host {
    Host(v => true, v => true, v => "", v => None, v => "", v => "", q => "", e => e)
  }

  /**
   * The discrepancy: in compatibility mode, passing the callback in the options
   * position yields the native endpoint and an unflagged normaliser, while
   * the corrected builder yields the compatible endpoint.
   */
  lemma CallbackOptionsLoseCompatibility()
    ensures
      var cfg := ContractQuery.Config(Bool(true), Bool(true));
      var asWritten := BuildTxRequest(ConstantHost(), cfg, Str("abc"), CallbackOptions);
      var fixed := BuildTxRequestFixed(ConstantHost(), cfg, Str("abc"), CallbackOptions);
      && asWritten == Success(TxRequest("event/transaction/abc", NormalizeOptions(Undef, Undef)))
      && fixed == Success(TxRequest("v1/transactions/abc/events", NormalizeOptions(Bool(true), Undef)))
  {
    assert "event/transaction/" + "abc" == "event/transaction/abc";
    assert "v1/transactions/" + "abc" + "/events" == "v1/transactions/abc/events";
  }
}
